=== FILE: README.md ===
# AMS backend: users, authentication and artist-profile authorization in Dafny

This project models the core of a small multi-role user and artist
management backend. Four parts are modelled:

- **The user store** (`users/services.py`). The raw-SQL functions for login,
  register, list, detail, update and delete are pure operations on two maps:
  the user table keyed by user id, and the user-profile table keyed by the id
  of the user it belongs to. Each operation returns what its source function
  returns, and the mutating ones also return the tables after their
  statements:
  - register and update return a `(success, data)` pair;
  - login returns a user or `None`;
  - list returns the projected rows;
  - detail returns one projected row or `None`;
  - delete returns whether a row was removed. Password hashing
  is a `Hasher` value of two functions. Its soundness (`check(p, make(p, salt))`)
  is a hypothesis of the lemmas that need it, not an axiom.
- **The artist-profile views** (`artists/views.py`). These decide the status
  for GET, PUT, DELETE, create and list. Each view also returns the sequence of
  artist-service calls it made, so "no change" means "no mutating call". The
  artist service itself lies outside this model, so its replies are inputs.
- **The auth views** (`core/views.py`). Login and register outcomes map to
  statuses and bodies. The login display name comes from the profile, or from
  the email when there is no profile. Logout empties the session.
- **The schema layer** (`core/models.py`). It covers the role, gender and genre
  choices with their defaults, and the `validate_phone` regular expression.
  Python's `re.match` semantics apply, so `$` also matches before one final
  newline. It also covers `validate_date`, with "today" as a parameter, and the
  `__str__` of `UserProfile` and `Music`.

Modules follow the source layout:

- `wrappers.dfy`: `Option`.
- `uuids.dfy`: `str(uuid)`, proved injective. The views' string comparison of
  ids is therefore comparison of users.
- `pytext.dfy`: Python's `isspace`, `strip()`, and the f-string rendering of
  `None`.
- `models.dfy`, `user_services.dfy`, `http.dfy`, `artist_views.dfy`,
  `auth_views.dfy`.

The model follows the code in these places:

- **Register is not atomic.** It runs two separate inserts under autocommit. A
  failing profile insert leaves the new user row behind, and the email is then
  taken (`RegisterPartialFailure`).
- **Non-integrity errors return the exception text.** A database error other
  than an integrity error comes back as `{"error": str(e)}`, not as a fixed
  generic message.
- **New ids are not assumed fresh.** The fresh `uuid4()` values are
  parameters. A collision fails with the integrity error the database would
  raise.
- **Login requires unique emails.** It takes as a precondition the unique
  constraint on the email column (core/core/models.py:61). That constraint is
  why the email lookup finds at most one row.
- **Update can fail in two ways.** A missing key is written as NULL, and a NULL
  in a NOT NULL column is an integrity error, but only when a row with the id
  exists. An email that another user already has is also an integrity error.

## Model

| member | source | states |
|---|---|---|
| Uuids.ToString | core/users/services.py:153 | the id string is 36 characters in 8-4-4-4-12 groups joined by dashes |
| Uuids.ToStringInjective | core/artists/views.py:55-57 | two ids have the same string form exactly when they are the same id |
| PyText.Strip | core/core/views.py:43 | the result has no whitespace at either end and is a contiguous part of the input; only whitespace is removed before and after it |
| PyText.StripIdempotent | core/core/models.py:133 | stripping an already stripped name changes nothing |
| PyText.StripKeepsContent | core/core/models.py:133 | a string with any non-space character does not strip to the empty string |
| PyText.Format | core/core/models.py:133 | an f-string renders a null column as "None" and a present value as itself |
| Models.RoleChoices | core/core/models.py:66-68 | the roles are exactly artist, artist_manager and super_admin; each reads back from its stored value; the default is artist |
| Models.GenderChoices | core/core/models.py:102-104 | the genders are exactly male, female and other, each reading back from its value; the default is male |
| Models.GenreChoices | core/core/models.py:208-210 | the genres are exactly the ten listed values, each reading back from its value; the default is rnb |
| Models.ValidateDate | core/core/models.py:37-40 | a date is rejected, with the future-date message, exactly when it is present and strictly after today |
| Models.ValidateDateMonotone | core/core/models.py:37-40 | today is accepted, and a date accepted today stays accepted on every later day |
| Models.ValidatePhone | core/core/models.py:43-50 | the scan accepts exactly the strings matched by `^\+?1?\d{9,15}$` under `re.match` (optional `+`, optional `1`, 9 to 15 digits, at most one final newline), and rejects with the format message otherwise |
| Models.PhoneSixteenDigits | core/core/models.py:45 | for every fifteen-digit string d, `1`+d and `+1`+d (sixteen digits) match, and so does `1`+d followed by one newline; every string shorter than nine characters is rejected |
| Models.FullName | core/core/models.py:133 | the full name is the part of the "first last" rendering left after removing its leading and trailing whitespace, and has no edge whitespace itself |
| Models.UserProfileLabel | core/core/models.py:130-136 | with a non-empty first name the label is the stripped full name, otherwise "Profile of " and the owner's email |
| Models.FullNameNonEmpty | core/core/models.py:132-135 | a first name with a non-space character gives a non-empty label |
| Models.MusicLabel | core/core/models.py:229-231 | the label starts with the title, followed by " (album)" when the album name is non-empty |
| Models.MusicLabelIsTitle | core/core/models.py:231 | the label is the bare title exactly when the album name is null or empty |
| UserServices.Failure | core/users/services.py:155-158 | an integrity error replies with the fixed message; any other error replies with the exception's text; both are failures |
| UserServices.Login | core/users/services.py:21-67 | a user is returned only if the query ran, the row has the email and the stored hash checks against the password, and then it equals the stored row; otherwise `None` |
| UserServices.LoginHidesCause | core/users/services.py:35-61 | an unknown email and a wrong password give the same `None` |
| UserServices.LoginIgnoresIsActive | core/users/services.py:47-57 | the right password signs in a user whose `is_active` is false |
| UserServices.NewProfile | core/users/services.py:138-151 | the inserted profile has the new profile id and the form's first name, last name, phone, date of birth, gender and address, all present |
| UserServices.NewUser | core/users/services.py:110-130 | the inserted row has the form's email and role, the hash, and is not staff, is active and is not superuser |
| UserServices.Register | core/users/services.py:91-158 | a failing email lookup, a taken email, a failing user insert or a colliding user id each give their error reply (the fixed integrity message or the exception's text, or the email error) and no change; a user row is left behind only after its insert succeeded and the profile insert failed, and whenever the lookup and the user insert succeed on a free email and a fresh id the user row is there whatever the profile insert does; success happens exactly when there is no fault, the email is free and the new ids collide with nothing, and then it adds exactly the one user row and the one profile built from the form, and returns the id's string; failure adds no profile; existing rows are untouched; unique emails are kept |
| UserServices.RegisterConsistent | core/users/services.py:95-151 | register keeps unique emails, profiles only for existing users and unique profile ids |
| UserServices.RegisterThenLogin | core/users/services.py:106-131 | after a successful register, login with the same email and password returns the stored row under the new id |
| UserServices.RegisterPartialFailure | core/users/services.py:131-151 | a failing profile insert leaves the user row without a profile, and a second registration with the email is refused |
| UserServices.RegisterIgnoresPhoneAndDob | core/users/services.py:134-151 | with the same database faults, the phone number and date of birth do not change the reply: no field validator runs |
| UserServices.List | core/users/services.py:168-178 | the list holds exactly the projections of the users whose role is not super_admin |
| UserServices.Detail | core/users/services.py:191-203 | the projection of the row with the id, or `None` exactly when there is none |
| UserServices.ListIsDetailOfNonAdmins | core/users/services.py:170-203 | a summary is listed exactly when it is the detail of its id and its role is not super_admin |
| UserServices.Update | core/users/services.py:218-238 | a database fault replies with its error and changes nothing; success overwrites just email, staff, active and role of the row; other rows, other columns and profiles are unchanged; a missing id still succeeds; a NULL or another user's email fails with the fixed integrity message and no change; unique emails are kept |
| UserServices.UpdateEmailConflict | core/users/services.py:233-236 | taking another user's email replies with the update integrity message and changes nothing |
| UserServices.DeleteAsWritten | core/users/services.py:251-258 | the statement raises an integrity error exactly when the user has a profile; otherwise it reports whether the row existed and removes that one user row, leaving every other user row and every profile as it was |
| UserServices.DeleteRegisteredUserRaises | core/users/services.py:253-258 | deleting a freshly registered user raises an integrity error |
| UserServices.Delete | core/core/models.py:114 | reports true exactly when the user existed; afterwards neither the user nor its profile exists and everything else is unchanged |
| UserServices.DeleteConsistent | core/users/services.py:253-258 | delete keeps the schema's guarantees, and agrees with the statement as written for users without a profile |
| ArtistViews.MayAccessIsOwnership | core/artists/views.py:55-57 | the string comparison of owner and requester grants access exactly to the owner or a superuser |
| ArtistViews.Create | core/artists/views.py:19-31 | invalid data gives 400 with no service call; valid data calls create for the requester and gives 201 on success, 400 on failure |
| ArtistViews.ListProfiles | core/artists/views.py:38-42 | the list gives 200 on success and 500 on failure, with no mutation |
| ArtistViews.Get | core/artists/views.py:51-64 | a missing profile gives 404; a found one gives 200 exactly for its owner or a superuser and 403 otherwise; nothing is mutated |
| ArtistViews.Put | core/artists/views.py:66-89 | the update runs exactly when the profile was found, the requester is owner or superuser and the data is valid; missing gives 404, not permitted gives 403, invalid gives 400, service success 200 and failure 400 |
| ArtistViews.Delete | core/artists/views.py:91-106 | the delete runs exactly when the profile was found and the requester is owner or superuser; missing gives 404, not permitted 403, service success 204 and failure 404 |
| ArtistViews.StrangerForbidden | core/artists/views.py:51-106 | a requester who is neither owner nor superuser gets 403 from GET, PUT and DELETE, and nothing is mutated |
| ArtistViews.SuperuserUnrestricted | core/artists/views.py:51-106 | a superuser reads, updates and deletes any found profile |
| AuthViews.DisplayName | core/core/views.py:41-45 | the name is the profile's stripped full name, or the email when there is no profile |
| AuthViews.LoginView | core/core/views.py:27-64 | invalid body gives 400 without a query; no match gives 401 "Invalid credentials"; a match gives 200 with the tokens, the id string, the stored email and role, and the display name |
| AuthViews.EchoOf | core/core/views.py:99-100 | the 201 body echoes every submitted field (first and last name, email, phone, date of birth, gender, address, role) and has no password field |
| AuthViews.RegisterView | core/core/views.py:74-104 | invalid body gives 400 without calling the service; otherwise the tables are the service's, 201 exactly on success, and 400 with exactly the service's error mapping on failure |
| AuthViews.RegisterViewEmailTaken | core/core/views.py:87-102 | registering a taken email answers 400 with the email error and leaves the tables unchanged |
| AuthViews.RegisterThenLoginView | core/core/views.py:36-57 | after a register, login answers 200 with the new id, the email, the role and the stripped "first last" name |
| AuthViews.LogoutView | core/core/views.py:116-123 | any session is emptied and the answer is 200 with "Successfully logged out." |

## Left out

- SQL text, cursors and row mechanics are not modelled. The tables are maps. The user list is a set, because the query fixes no order.
- Timestamps (`created`, `modified`, `date_joined`, `NOW()`) are not modelled, because no property depends on them.
- Password hashing is not modelled. `make_password` and `check_password` are the two functions of a `Hasher`, and the salt is a parameter.
- Token generation is not modelled. `core/utils` is not part of this model, so the two tokens are inputs.
- Serializer validation is not modelled. The validation happens inside the framework or in `core/validator`, which is not part of this model. A request body arrives already validated, or with its errors.
- Authentication and permission classes are not modelled. Every view runs for an authenticated requester, or, for login and register, for anyone. Refusals of unauthenticated requests happen in the framework.
- The artist service is not modelled. `artists/services.py` is not part of this model, so its replies are inputs and only its calls are recorded.
- Database failures the model does not derive from the tables are fault parameters. Examples are a value longer than its column and a lost connection.
- Manager and artist profiles, their `__str__`, `User.__str__`, `set_password` and `get_absolute_url` are not modelled.
- UserServices.Delete: "everything else is unchanged" holds only within the two modelled tables. The declared cascade also removes the user's artist profile (core/core/models.py:169-171) and manager profile (core/core/models.py:142-144), the artist profiles managed by that manager (core/core/models.py:172-178), and the music of the removed artists (core/core/models.py:211-224). Those tables are not part of the model.
- UserServices.RegisterIgnoresPhoneAndDob: the phone column holds at most 15 characters (core/core/models.py:119-121), and the register form puts no length limit on the phone. On a database that enforces column lengths, a longer phone makes the profile insert fail and leaves the user row behind. The model does not derive that failure from the phone: it enters as the profile-insert fault, so the lemma holds for equal faults only.
- ArtistViews.MayAccessIsOwnership: the artist service is taken to return the profile's `user_id` as a UUID value, as PostgreSQL's native uuid column gives it. If it returned the stored column text instead (Django stores a UUID as 32 hex digits without dashes on other databases), the `str` comparison in core/artists/views.py would refuse even the owner. The model does not cover that case.
- UserServices.DeleteAsWritten: "raises exactly when the user has a profile" holds only within the two modelled tables. Artist profiles (core/core/models.py:169-171), manager profiles (core/core/models.py:142-144) and the group and permission tables of `PermissionsMixin` also hold foreign keys to the user row. The bare DELETE raises for a user with any of those rows too, and the model does not include those tables.
- Concurrency, and the race between the ownership check and the mutation, are not modelled. The model is sequential.
- Models.ValidatePhone: `\d` is modelled as the ASCII digits only. Python's `\d` on a `str` also matches other Unicode decimal digits.
- Models.ValidateDate: dates compare by year, month and day. The model does not constrain month or day ranges, because Python dates are always valid.
- Email equality is exact string equality. Collation rules of the database are not modelled.
- Django skips field validators for empty values. That framework rule is not modelled.

## Findings

| source | as written | input that shows it | evidently intended | confidence | as-written member | corrected member |
|---|---|---|---|---|---|---|
| core/users/services.py:253-258 | The statement is a bare DELETE on the user table. The profile's CASCADE (core/core/models.py:114) is carried out by Django's ORM and is not declared in the database. The profile's foreign key therefore refuses the statement, and the IntegrityError escapes uncaught. | Delete the id of any user created by register. Every such user has a profile (`DeleteRegisteredUserRaises`). | The user row and its profile are removed, and the function returns True. | not executed; medium: rests on Django not emitting ON DELETE CASCADE for `on_delete=CASCADE`; on PostgreSQL the foreign keys are deferred, so inside a transaction the error surfaces at commit rather than at the statement | UserServices.DeleteAsWritten | UserServices.Delete |

=== FILE: artist_views.dfy ===
/**
 * The artist-profile views.  The artist service is outside this model: its
 * replies are inputs, and each view reports the service calls it made, in
 * order, so that "nothing was changed" reads as "no mutating call was made".
 */
module ArtistViews {
  import opened Uuids
  import opened Http

  /** The authenticated user making the request. */
  datatype Requester = Requester(id: Uuid, isSuperuser: bool)

  /** An artist profile as the detail service returns it: its `user_id` and the rest of its fields. */
  datatype ArtistProfile = ArtistProfile(ownerId: Uuid, fields: string)

  /** The detail service's `(success, data)`: the profile, or an error payload. */
  datatype Lookup = Found(profile: ArtistProfile) | Missing(error: string)

  /** The `(success, data)` of the create, list, update and delete services. */
  datatype ServiceReply = ServiceReply(success: bool, data: string)

  datatype Call =
    | FetchDetail(pk: Uuid)
    | FetchList
    | CreateProfile(owner: Uuid, data: string)
    | UpdateProfile(pk: Uuid, data: string)
    | DeleteProfile(pk: Uuid)

  predicate Mutating(c: Call) {
    c.CreateProfile? || c.UpdateProfile? || c.DeleteProfile?
  }

  predicate Mutates(calls: seq<Call>) {
    exists i :: 0 <= i < |calls| && Mutating(calls[i])
  }

  datatype ArtistBody =
    | ProfileData(profile: ArtistProfile)
    | ServiceData(data: string)
    | ArtistError(error: string)
    | InvalidData(error: string, details: string)

  /** A view's answer together with the artist-service calls it made, in order. */
  datatype Handled = Handled(status: int, body: ArtistBody, calls: seq<Call>)

  const CreateFailedMessage := "Failed to create artist profile."
  const InvalidDataMessage := "Invalid data provided."
  const ViewForbiddenMessage := "You do not have permission to view this profile."
  const EditForbiddenMessage := "You do not have permission to edit this profile."
  const DeleteForbiddenMessage := "You do not have permission to delete this profile."

  /** The owner-or-superuser rule as the views evaluate it, on the string forms of the ids. */
  predicate MayAccess(req: Requester, owner: Uuid) {
    req.isSuperuser || ToString(owner) == ToString(req.id)
  }

  /** Comparing the string forms is comparing the users: access means superuser or owner. */
  lemma MayAccessIsOwnership(req: Requester, owner: Uuid)
    ensures MayAccess(req, owner) <==> req.isSuperuser || owner == req.id
  {
    ToStringInjective(owner, req.id);
  }

  /** `ArtistProfileCreateView.post`: the service is called only with valid data, for the requester. */
  function Create(req: Requester, payload: Validated<string>, reply: ServiceReply): (r: Handled)
    ensures payload.Invalid? ==> r.status == BadRequest && r.calls == []
                                 && r.body == InvalidData(InvalidDataMessage, payload.errors)
    ensures payload.Valid? ==> r.calls == [CreateProfile(req.id, payload.value)]
    ensures payload.Valid? && reply.success ==> r.status == Created && r.body == ServiceData(reply.data)
    ensures payload.Valid? && !reply.success ==> r.status == BadRequest && r.body == ArtistError(CreateFailedMessage)
  {
    match payload
    case Invalid(errors) => Handled(BadRequest, InvalidData(InvalidDataMessage, errors), [])
    case Valid(data) =>
      var calls := [CreateProfile(req.id, data)];
      if reply.success then Handled(Created, ServiceData(reply.data), calls)
      else Handled(BadRequest, ArtistError(CreateFailedMessage), calls)
  }

  /** `ArtistProfileListView.get`: the service's data, with 200 or 500. */
  function ListProfiles(reply: ServiceReply): (r: Handled)
    ensures r.calls == [FetchList] && !Mutates(r.calls)
    ensures r.body == ServiceData(reply.data)
    ensures r.status == (if reply.success then OK else InternalServerError)
  {
    Handled(if reply.success then OK else InternalServerError, ServiceData(reply.data), [FetchList])
  }

  /** `ArtistProfileDetailView.get`: 404 if missing, else the profile for its owner or a superuser, 403 otherwise. */
  function Get(req: Requester, pk: Uuid, lookup: Lookup): (r: Handled)
    ensures r.calls == [FetchDetail(pk)] && !Mutates(r.calls)
    ensures lookup.Missing? ==> r.status == NotFound && r.body == ServiceData(lookup.error)
    ensures lookup.Found? ==>
              && (r.status == OK <==> req.isSuperuser || lookup.profile.ownerId == req.id)
              && (r.status == OK ==> r.body == ProfileData(lookup.profile))
              && (r.status != OK ==> r.status == Forbidden && r.body == ArtistError(ViewForbiddenMessage))
  {
    var calls := [FetchDetail(pk)];
    match lookup
    case Missing(error) => Handled(NotFound, ServiceData(error), calls)
    case Found(profile) =>
      MayAccessIsOwnership(req, profile.ownerId);
      if MayAccess(req, profile.ownerId) then Handled(OK, ProfileData(profile), calls)
      else Handled(Forbidden, ArtistError(ViewForbiddenMessage), calls)
  }

  /**
   * `ArtistProfileDetailView.put`: fetch, then 404 if missing, then 403
   * unless owner or superuser, then 400 on invalid data; only then is the
   * update service called, its result giving 200 or 400.
   */
  function Put(req: Requester, pk: Uuid, lookup: Lookup, payload: Validated<string>, reply: ServiceReply): (r: Handled)
    ensures |r.calls| >= 1 && r.calls[0] == FetchDetail(pk)
    ensures Mutates(r.calls) <==>
              lookup.Found? && (req.isSuperuser || lookup.profile.ownerId == req.id) && payload.Valid?
    ensures Mutates(r.calls) ==> r.calls == [FetchDetail(pk), UpdateProfile(pk, payload.value)]
    ensures !Mutates(r.calls) ==> r.calls == [FetchDetail(pk)]
    ensures lookup.Missing? ==> r.status == NotFound && r.body == ServiceData(lookup.error)
    ensures lookup.Found? && !req.isSuperuser && lookup.profile.ownerId != req.id ==>
              r.status == Forbidden && r.body == ArtistError(EditForbiddenMessage)
    ensures lookup.Found? && (req.isSuperuser || lookup.profile.ownerId == req.id) ==>
              && (payload.Invalid? ==> r.status == BadRequest && r.body == InvalidData(InvalidDataMessage, payload.errors))
              && (payload.Valid? ==> r.status == (if reply.success then OK else BadRequest)
                                     && r.body == ServiceData(reply.data))
  {
    var fetch := [FetchDetail(pk)];
    match lookup
    case Missing(error) => Handled(NotFound, ServiceData(error), fetch)
    case Found(profile) =>
      MayAccessIsOwnership(req, profile.ownerId);
      if !MayAccess(req, profile.ownerId) then Handled(Forbidden, ArtistError(EditForbiddenMessage), fetch)
      else
        match payload
        case Invalid(errors) => Handled(BadRequest, InvalidData(InvalidDataMessage, errors), fetch)
        case Valid(data) =>
          var calls := fetch + [UpdateProfile(pk, data)];
          assert Mutating(calls[1]);
          Handled(if reply.success then OK else BadRequest, ServiceData(reply.data), calls)
  }

  /**
   * `ArtistProfileDetailView.delete`: fetch, then 404 if missing, then 403
   * unless owner or superuser; only then is the delete service called, its
   * result giving 204 or 404.
   */
  function Delete(req: Requester, pk: Uuid, lookup: Lookup, reply: ServiceReply): (r: Handled)
    ensures |r.calls| >= 1 && r.calls[0] == FetchDetail(pk)
    ensures Mutates(r.calls) <==> lookup.Found? && (req.isSuperuser || lookup.profile.ownerId == req.id)
    ensures Mutates(r.calls) ==> r.calls == [FetchDetail(pk), DeleteProfile(pk)]
    ensures !Mutates(r.calls) ==> r.calls == [FetchDetail(pk)]
    ensures lookup.Missing? ==> r.status == NotFound && r.body == ServiceData(lookup.error)
    ensures lookup.Found? && !req.isSuperuser && lookup.profile.ownerId != req.id ==>
              r.status == Forbidden && r.body == ArtistError(DeleteForbiddenMessage)
    ensures Mutates(r.calls) ==> r.status == (if reply.success then NoContent else NotFound)
                                 && r.body == ServiceData(reply.data)
  {
    var fetch := [FetchDetail(pk)];
    match lookup
    case Missing(error) => Handled(NotFound, ServiceData(error), fetch)
    case Found(profile) =>
      MayAccessIsOwnership(req, profile.ownerId);
      if !MayAccess(req, profile.ownerId) then Handled(Forbidden, ArtistError(DeleteForbiddenMessage), fetch)
      else
        var calls := fetch + [DeleteProfile(pk)];
        assert Mutating(calls[1]);
        Handled(if reply.success then NoContent else NotFound, ServiceData(reply.data), calls)
  }

  /** Someone who is neither owner nor superuser gets 403 from GET, PUT and DELETE, and nothing is changed. */
  lemma StrangerForbidden(req: Requester, pk: Uuid, profile: ArtistProfile, payload: Validated<string>, reply: ServiceReply)
    requires !req.isSuperuser && profile.ownerId != req.id
    ensures Get(req, pk, Found(profile)).status == Forbidden
    ensures Put(req, pk, Found(profile), payload, reply).status == Forbidden
    ensures Delete(req, pk, Found(profile), reply).status == Forbidden
    ensures !Mutates(Put(req, pk, Found(profile), payload, reply).calls)
    ensures !Mutates(Delete(req, pk, Found(profile), reply).calls)
  {
  }

  /** A superuser reads, updates and deletes any existing profile, whoever owns it. */
  lemma SuperuserUnrestricted(req: Requester, pk: Uuid, profile: ArtistProfile, data: string, reply: ServiceReply)
    requires req.isSuperuser
    ensures Get(req, pk, Found(profile)).status == OK
    ensures Put(req, pk, Found(profile), Valid(data), reply).calls == [FetchDetail(pk), UpdateProfile(pk, data)]
    ensures Delete(req, pk, Found(profile), reply).calls == [FetchDetail(pk), DeleteProfile(pk)]
  {
  }
}

=== FILE: auth_views.dfy ===
/**
 * The login, register and logout views: how the outcomes of the user
 * services map to statuses and bodies, and how the display name returned
 * on login is built.  Token generation is outside this model; the two
 * tokens are inputs.
 */
module AuthViews {
  import opened Wrappers
  import opened Uuids
  import opened PyText
  import opened Models
  import opened UserServices
  import opened Http

  datatype Credentials = Credentials(email: string, password: string)

  /** The access and refresh tokens issued for a signed-in user. */
  datatype Tokens = Tokens(access: string, refresh: string)

  /** The register serializer's representation of its validated data: every field but the write-only passwords. */
  datatype Echo = Echo(
    firstName: string,
    lastName: string,
    email: string,
    phone: string,
    dob: Date,
    gender: Gender,
    address: string,
    role: Role)

  datatype AuthBody =
    | SignedInBody(access: string, refresh: string, userId: string, email: string, role: string, name: string)
    | ErrorText(error: string)
    | SerializerErrors(errors: string)
    | ServiceErrors(data: Data)
    | Registered(echo: Echo)
    | MessageText(message: string)

  const InvalidCredentialsMessage := "Invalid credentials"
  const LoggedOutMessage := "Successfully logged out."

  /** The name login reports: the profile's stripped full name, or the email when there is no profile. */
  function DisplayName(db: Db, signed: SignedIn): (name: string)
    ensures signed.id in db.profiles ==> Trimmed(name) && name == FullName(db.profiles[signed.id])
    ensures signed.id !in db.profiles ==> name == signed.user.email
  {
    if signed.id in db.profiles then FullName(db.profiles[signed.id]) else signed.user.email
  }

  /** A login response and whether the login query ran. */
  datatype LoginResult = LoginResult(response: Response<AuthBody>, queried: bool)

  /**
   * `LoginView.post`: 400 with the serializer's errors when the body is
   * invalid, without querying; 401 when the login query finds no match;
   * otherwise 200 with the tokens, the user's id, email, role and name.
   */
  function LoginView(db: Db, h: Hasher, request: Validated<Credentials>, tokens: Tokens, queryFails: bool): (r: LoginResult)
    requires UniqueEmails(db.users)
    ensures request.Invalid? ==> r == LoginResult(Response(BadRequest, SerializerErrors(request.errors)), false)
    ensures request.Valid? ==> r.queried
    ensures r.response.status == OK <==>
              request.Valid? && Login(db, h, request.value.email, request.value.password, queryFails).Some?
    ensures request.Valid? && Login(db, h, request.value.email, request.value.password, queryFails).None? ==>
              r.response == Response(Unauthorized, ErrorText(InvalidCredentialsMessage))
    ensures r.response.status == OK ==>
              var signed := Login(db, h, request.value.email, request.value.password, queryFails).value;
              && signed.id in db.users
              && r.response.body == SignedInBody(tokens.access, tokens.refresh, ToString(signed.id),
                                                 db.users[signed.id].email, RoleName(db.users[signed.id].role),
                                                 DisplayName(db, signed))
  {
    match request
    case Invalid(errors) => LoginResult(Response(BadRequest, SerializerErrors(errors)), false)
    case Valid(creds) =>
      match Login(db, h, creds.email, creds.password, queryFails)
      case None => LoginResult(Response(Unauthorized, ErrorText(InvalidCredentialsMessage)), true)
      case Some(signed) =>
        var body := SignedInBody(tokens.access, tokens.refresh, ToString(signed.id), signed.user.email,
                                 RoleName(signed.user.role), DisplayName(db, signed));
        LoginResult(Response(OK, body), true)
  }

  /** The tables and response after a register request, and whether the register service ran. */
  datatype RegisterResult = RegisterResult(response: Response<AuthBody>, db: Db, serviceCalled: bool)

  function EchoOf(form: Registration): (e: Echo)
    ensures e.email == form.email && e.role == form.role
    ensures e.firstName == form.firstName && e.lastName == form.lastName && e.phone == form.phone
    ensures e.dob == form.dob && e.gender == form.gender && e.address == form.address
  {
    Echo(form.firstName, form.lastName, form.email, form.phone, form.dob, form.gender, form.address, form.role)
  }

  /**
   * `RegisterView.post`: 400 with the serializer's errors when the body is
   * invalid; otherwise the register service runs, giving 201 with the
   * validated data on success and 400 with exactly the service's error
   * mapping on failure.
   */
  function RegisterView(db: Db, h: Hasher, request: Validated<Registration>, userId: Uuid, profileId: Uuid,
                        salt: string, faults: Faults): (r: RegisterResult)
    ensures request.Invalid? ==> r == RegisterResult(Response(BadRequest, SerializerErrors(request.errors)), db, false)
    ensures request.Valid? ==>
              var change := Register(db, h, request.value, userId, profileId, salt, faults);
              && r.serviceCalled && r.db == change.db
              && (r.response.status == Created <==> change.reply.success)
              && (change.reply.success ==> r.response.body == Registered(EchoOf(request.value)))
              && (!change.reply.success ==> r.response == Response(BadRequest, ServiceErrors(change.reply.data)))
  {
    match request
    case Invalid(errors) => RegisterResult(Response(BadRequest, SerializerErrors(errors)), db, false)
    case Valid(form) =>
      var change := Register(db, h, form, userId, profileId, salt, faults);
      if change.reply.success then RegisterResult(Response(Created, Registered(EchoOf(form))), change.db, true)
      else RegisterResult(Response(BadRequest, ServiceErrors(change.reply.data)), change.db, true)
  }

  /** A registration with a taken email answers 400 with the email error and changes nothing. */
  lemma RegisterViewEmailTaken(db: Db, h: Hasher, form: Registration, userId: Uuid, profileId: Uuid, salt: string)
    requires EmailTaken(db.users, form.email)
    ensures RegisterView(db, h, Valid(form), userId, profileId, salt, NoFaults)
            == RegisterResult(Response(BadRequest, ServiceErrors(FieldErrors("email", [EmailExistsMessage]))), db, true)
  {
  }

  /**
   * Registering and then signing in with the same email and password
   * answers 200 with the new id, the registered email and role, and the
   * stripped first and last name as the display name.
   */
  lemma RegisterThenLoginView(db: Db, h: Hasher, form: Registration, userId: Uuid, profileId: Uuid,
                              salt: string, tokens: Tokens)
    requires Sound(h) && UniqueEmails(db.users)
    requires RegisterView(db, h, Valid(form), userId, profileId, salt, NoFaults).response.status == Created
    ensures var after := RegisterView(db, h, Valid(form), userId, profileId, salt, NoFaults).db;
            && UniqueEmails(after.users)
            && LoginView(after, h, Valid(Credentials(form.email, form.password)), tokens, false).response
               == Response(OK, SignedInBody(tokens.access, tokens.refresh, ToString(userId), form.email,
                                            RoleName(form.role), Strip(form.firstName + " " + form.lastName)))
  {
    RegisterThenLogin(db, h, form, userId, profileId, salt);
    var after := Register(db, h, form, userId, profileId, salt, NoFaults).db;
    var signed := SignedIn(userId, NewUser(form, h.make(form.password, salt)));
    assert after.profiles[userId] == NewProfile(form, profileId);
    assert DisplayName(after, signed) == Strip(form.firstName + " " + form.lastName);
  }

  /** The session the logout view flushes: the signed-in user and the session's stored values. */
  datatype Session = Session(user: Option<Uuid>, values: map<string, string>)

  datatype LogoutResult = LogoutResult(response: Response<AuthBody>, session: Session)

  /** `LogoutView.post`: whatever the session held, it is emptied and the answer is 200 with a fixed message. */
  function LogoutView(session: Session): (r: LogoutResult)
    ensures r.response == Response(OK, MessageText(LoggedOutMessage))
    ensures r.session.user == None && r.session.values == map[]
  {
    LogoutResult(Response(OK, MessageText(LoggedOutMessage)), Session(None, map[]))
  }
}

=== FILE: http.dfy ===
/** The request-layer vocabulary shared by the views: status codes and serializer results. */
module Http {

  const OK := 200
  const Created := 201
  const NoContent := 204
  const BadRequest := 400
  const Unauthorized := 401
  const Forbidden := 403
  const NotFound := 404
  const InternalServerError := 500

  /** What a view answers: a status code and a body. */
  datatype Response<B> = Response(status: int, body: B)

  /** A serializer's verdict on a request body: the validated data, or its errors. */
  datatype Validated<T> = Valid(value: T) | Invalid(errors: string)
}

=== FILE: models.dfy ===
/**
 * The schema layer: the closed choice sets with their defaults, the two
 * field validators, the record types of users, profiles and music, and
 * their display strings.
 */
module Models {
  import opened Wrappers
  import opened Uuids
  import opened PyText

  // ----- choice sets -----

  datatype Role = Artist | ArtistManager | SuperAdmin

  datatype Gender = Male | Female | Other

  datatype Genre =
    | Rnb | Country | Classic | Rock | Jazz | Pop
    | IndieFolk | PopRock | AlternativeRock | Soul

  const DefaultRole: Role := Artist
  const DefaultGender: Gender := Male
  const DefaultGenre: Genre := Rnb

  /** The stored value of a role, as spelled in the choice list. */
  function RoleName(r: Role): string {
    match r
    case Artist => "artist"
    case ArtistManager => "artist_manager"
    case SuperAdmin => "super_admin"
  }

  function GenderName(g: Gender): string {
    match g
    case Male => "male"
    case Female => "female"
    case Other => "other"
  }

  function GenreName(g: Genre): string {
    match g
    case Rnb => "rnb"
    case Country => "country"
    case Classic => "classic"
    case Rock => "rock"
    case Jazz => "jazz"
    case Pop => "pop"
    case IndieFolk => "indie_folk"
    case PopRock => "pop_rock"
    case AlternativeRock => "alternative_rock"
    case Soul => "soul"
  }

  /** The stored value accepted as a role, if it is one of the choices. */
  function ParseRole(s: string): (r: Option<Role>)
    ensures r.Some? ==> RoleName(r.value) == s
  {
    if s == "artist" then Some(Artist)
    else if s == "artist_manager" then Some(ArtistManager)
    else if s == "super_admin" then Some(SuperAdmin)
    else None
  }

  function ParseGender(s: string): (r: Option<Gender>)
    ensures r.Some? ==> GenderName(r.value) == s
  {
    if s == "male" then Some(Male)
    else if s == "female" then Some(Female)
    else if s == "other" then Some(Other)
    else None
  }

  function ParseGenre(s: string): (r: Option<Genre>)
    ensures r.Some? ==> GenreName(r.value) == s
  {
    if s == "rnb" then Some(Rnb)
    else if s == "country" then Some(Country)
    else if s == "classic" then Some(Classic)
    else if s == "rock" then Some(Rock)
    else if s == "jazz" then Some(Jazz)
    else if s == "pop" then Some(Pop)
    else if s == "indie_folk" then Some(IndieFolk)
    else if s == "pop_rock" then Some(PopRock)
    else if s == "alternative_rock" then Some(AlternativeRock)
    else if s == "soul" then Some(Soul)
    else None
  }

  /** Every role reads back from its stored value, and exactly the three listed values are roles. */
  lemma RoleChoices(r: Role, s: string)
    ensures ParseRole(RoleName(r)) == Some(r)
    ensures ParseRole(s).Some? <==> s in {"artist", "artist_manager", "super_admin"}
    ensures RoleName(DefaultRole) == "artist"
  {
  }

  lemma GenderChoices(g: Gender, s: string)
    ensures ParseGender(GenderName(g)) == Some(g)
    ensures ParseGender(s).Some? <==> s in {"male", "female", "other"}
    ensures GenderName(DefaultGender) == "male"
  {
  }

  lemma GenreChoices(g: Genre, s: string)
    ensures ParseGenre(GenreName(g)) == Some(g)
    ensures ParseGenre(s).Some? <==> s in {"rnb", "country", "classic", "rock", "jazz", "pop",
                                           "indie_folk", "pop_rock", "alternative_rock", "soul"}
    ensures GenreName(DefaultGenre) == "rnb"
  {
  }

  // ----- validators -----

  /** What a field validator does: pass, or raise a validation error with a message. */
  datatype Validation = Accepted | Rejected(message: string)

  const FutureDateMessage := "Date must not be in the future."
  const PhoneMessage := "Phone number must be entered in the format: '+999999999'. Up to 15 digits allowed."

  /** A calendar date; Python compares dates by year, then month, then day. */
  datatype Date = Date(year: int, month: int, day: int)

  predicate Before(a: Date, b: Date) {
    || a.year < b.year
    || (a.year == b.year && a.month < b.month)
    || (a.year == b.year && a.month == b.month && a.day < b.day)
  }

  /** `validate_date`: no date, or a date that is not after `today`. */
  function ValidateDate(value: Option<Date>, today: Date): (v: Validation)
    ensures v.Rejected? <==> value.Some? && Before(today, value.value)
    ensures v.Rejected? ==> v.message == FutureDateMessage
  {
    if value.Some? && Before(today, value.value) then Rejected(FutureDateMessage) else Accepted
  }

  /** A date accepted today stays accepted on every later day; today itself is accepted. */
  lemma ValidateDateMonotone(value: Option<Date>, today: Date, later: Date)
    requires ValidateDate(value, today) == Accepted
    requires today == later || Before(today, later)
    ensures ValidateDate(value, later) == Accepted
    ensures ValidateDate(Some(today), today) == Accepted
  {
  }

  predicate IsDigit(c: char) {
    '0' <= c <= '9'
  }

  /**
   * One way `^\+?1?\d{9,15}$` can match `s` under `re.match`: `plus` and
   * `one` say whether the optional `+` and `1` were taken, `digits` how many
   * digits follow, and the `$` sits at the very end or before one final
   * newline.
   */
  predicate PhoneMatchAt(s: string, plus: nat, one: nat, digits: nat) {
    var end := plus + one + digits;
    && plus <= 1 && one <= 1 && 9 <= digits <= 15
    && (end == |s| || (end + 1 == |s| && s[end] == '\n'))
    && (plus == 1 ==> s[0] == '+')
    && (one == 1 ==> s[plus] == '1')
    && forall k :: plus + one <= k < end ==> IsDigit(s[k])
  }

  /** The language of the phone pattern. */
  predicate PhonePattern(s: string) {
    exists plus: nat, one: nat, digits: nat | plus <= 1 && one <= 1 && 9 <= digits <= 15 ::
      PhoneMatchAt(s, plus, one, digits)
  }

  /**
   * `validate_phone`: drops one final newline (where `$` may match), an
   * optional leading `+`, then scans for digits; the remaining digits must
   * number 9 to 15, or 16 when the first of them can be the optional `1`.
   */
  method ValidatePhone(value: string) returns (v: Validation)
    ensures v == Accepted <==> PhonePattern(value)
    ensures v.Rejected? ==> v.message == PhoneMessage
  {
    var body := value;
    if |value| > 0 && value[|value| - 1] == '\n' {
      body := value[..|value| - 1];
    }
    var start := if |body| > 0 && body[0] == '+' then 1 else 0;
    var j := start;
    while j < |body| && IsDigit(body[j])
      invariant start <= j <= |body|
      invariant forall k :: start <= k < j ==> IsDigit(body[k])
    {
      j := j + 1;
    }
    var n := |body| - start;
    if j == |body| && (9 <= n <= 15 || (n == 16 && body[start] == '1')) {
      PhoneAccepts(value, body, start);
      v := Accepted;
    } else {
      v := Rejected(PhoneMessage);
    }
  }

  lemma PhoneAccepts(value: string, body: string, start: nat)
    requires body == value || (value == body + "\n")
    requires start <= 1 && start <= |body| && (start == 1 <==> body != [] && body[0] == '+')
    requires forall k :: start <= k < |body| ==> IsDigit(body[k])
    requires var n := |body| - start; 9 <= n <= 15 || (n == 16 && body[start] == '1')
    ensures PhonePattern(value)
  {
    var n := |body| - start;
    var one := if n == 16 then 1 else 0;
    assert PhoneMatchAt(value, start, one, n - one);
  }

  /** A leading `1` lets the pattern take sixteen digits, one more than its message allows. */
  lemma PhoneSixteenDigits(d: string, s: string)
    requires |d| == 15 && forall k :: 0 <= k < |d| ==> IsDigit(d[k])
    requires |s| < 9
    ensures PhonePattern("1" + d) && PhonePattern("+1" + d) && PhonePattern("1" + d + "\n")
    ensures !PhonePattern(s)
  {
    assert PhoneMatchAt("1" + d, 0, 1, 15);
    assert PhoneMatchAt("+1" + d, 1, 1, 15);
    assert PhoneMatchAt("1" + d + "\n", 0, 1, 15);
  }

  // ----- records -----

  /** A row of the user table, apart from its id (the table's key) and timestamps. */
  datatype User = User(
    email: string,
    password: string,
    role: Role,
    isStaff: bool,
    isActive: bool,
    isSuperuser: bool)

  /** A row of the user-profile table, apart from its user (the table's key) and timestamps. */
  datatype UserProfile = UserProfile(
    id: Uuid,
    firstName: Option<string>,
    lastName: Option<string>,
    phone: Option<string>,
    dateOfBirth: Option<Date>,
    gender: Gender,
    address: Option<string>)

  datatype Music = Music(
    title: string,
    albumName: Option<string>,
    releaseDate: Option<Date>,
    genre: Genre,
    createdBy: Option<Uuid>,
    artist: Option<Uuid>)

  /** The full name of a profile as `f"{first_name} {last_name}".strip()` renders it. */
  function FullName(p: UserProfile): (r: string)
    ensures Trimmed(r)
    ensures var joined := Format(p.firstName) + " " + Format(p.lastName);
              && StripOffset(joined) + |r| <= |joined| && r == joined[StripOffset(joined)..StripOffset(joined) + |r|]
              && (forall i :: 0 <= i < StripOffset(joined) ==> IsSpace(joined[i]))
              && (forall i :: StripOffset(joined) + |r| <= i < |joined| ==> IsSpace(joined[i]))
  {
    Strip(Format(p.firstName) + " " + Format(p.lastName))
  }

  /** `UserProfile.__str__`: the full name when there is a first name, else "Profile of" the owner's email. */
  function UserProfileLabel(p: UserProfile, owner: User): (r: string)
    ensures Truthy(p.firstName) ==> r == FullName(p) && Trimmed(r)
    ensures !Truthy(p.firstName) ==> r == "Profile of " + owner.email
  {
    if Truthy(p.firstName) then FullName(p) else
      "Profile of " + owner.email
  }

  /** A first name that is not blank leaves a non-empty full name. */
  lemma FullNameNonEmpty(p: UserProfile)
    requires Truthy(p.firstName)
    ensures FullName(p) != [] || AllSpace(p.firstName.value)
  {
    var f := p.firstName.value;
    var joined := f + " " + Format(p.lastName);
    if !AllSpace(f) {
      var k :| 0 <= k < |f| && !IsSpace(f[k]);
      assert joined[k] == f[k];
      StripKeepsContent(joined, k);
    }
  }

  /** `Music.__str__`: "title (album)" when there is an album name, else the title. */
  function MusicLabel(m: Music): (r: string)
    ensures |m.title| <= |r| && r[..|m.title|] == m.title
    ensures Truthy(m.albumName) ==> r[|m.title|..] == " (" + m.albumName.value + ")"
  {
    if Truthy(m.albumName) then m.title + " (" + m.albumName.value + ")" else m.title
  }

  /** The label is the bare title exactly when the album name is missing or empty. */
  lemma MusicLabelIsTitle(m: Music)
    ensures MusicLabel(m) == m.title <==> !Truthy(m.albumName)
  {
  }
}

=== FILE: pytext.dfy ===
/**
 * The little of Python's string behaviour the formatting code relies on:
 * `str.isspace`, `str.strip()` and how an f-string renders a value that may
 * be `None`.
 */
module PyText {
  import opened Wrappers

  /** The characters for which Python's `str.isspace()` is true. */
  predicate IsSpace(c: char) {
    || c == ' ' || c == '\t' || c == '\n' || c == '\r'
    || c == '\U{B}' || c == '\U{C}'
    || ('\U{1C}' <= c <= '\U{1F}')
    || c == '\U{85}' || c == '\U{A0}' || c == '\U{1680}'
    || ('\U{2000}' <= c <= '\U{200A}')
    || c == '\U{2028}' || c == '\U{2029}' || c == '\U{202F}' || c == '\U{205F}' || c == '\U{3000}'
  }

  predicate AllSpace(s: string) {
    forall k :: 0 <= k < |s| ==> IsSpace(s[k])
  }

  /** True when neither end of `s` is whitespace. */
  predicate Trimmed(s: string) {
    s == [] || (!IsSpace(s[0]) && !IsSpace(s[|s| - 1]))
  }

  /** `s.lstrip()`: a suffix of `s` that starts with a non-space, after whitespace only. */
  function TrimStart(s: string): (r: string)
    ensures |r| <= |s| && r == s[|s| - |r|..]
    ensures forall i :: 0 <= i < |s| - |r| ==> IsSpace(s[i])
    ensures r == [] || !IsSpace(r[0])
  {
    if s != [] && IsSpace(s[0]) then TrimStart(s[1..]) else s
  }

  /** `s.rstrip()`: a prefix of `s` that ends with a non-space, before whitespace only. */
  function TrimEnd(s: string): (r: string)
    ensures |r| <= |s| && r == s[..|r|]
    ensures forall i :: |r| <= i < |s| ==> IsSpace(s[i])
    ensures r == [] || !IsSpace(r[|r| - 1])
  {
    if s != [] && IsSpace(s[|s| - 1]) then TrimEnd(s[..|s| - 1]) else s
  }

  /** How many leading characters `strip()` removes. */
  function StripOffset(s: string): (n: nat)
    ensures n <= |s|
  {
    |s| - |TrimStart(s)|
  }

  /**
   * `s.strip()`: the part of `s` between a whitespace-only prefix and a
   * whitespace-only suffix, itself without whitespace at either end.
   */
  function Strip(s: string): (r: string)
    ensures Trimmed(r)
    ensures StripOffset(s) + |r| <= |s| && r == s[StripOffset(s)..StripOffset(s) + |r|]
    ensures forall i :: 0 <= i < StripOffset(s) ==> IsSpace(s[i])
    ensures forall i :: StripOffset(s) + |r| <= i < |s| ==> IsSpace(s[i])
  {
    var t := TrimStart(s);
    var r := TrimEnd(t);
    var off := |s| - |t|;
    assert forall i :: off + |r| <= i < |s| ==> s[i] == t[i - off];
    r
  }

  /** A string already without edge whitespace is its own `strip()`. */
  lemma StripTrimmed(s: string)
    requires Trimmed(s)
    ensures Strip(s) == s
  {
  }

  /** `strip()` is idempotent. */
  lemma StripIdempotent(s: string)
    ensures Strip(Strip(s)) == Strip(s)
  {
    StripTrimmed(Strip(s));
  }

  /** A string holding a non-space character does not strip to the empty string. */
  lemma StripKeepsContent(s: string, k: nat)
    requires k < |s| && !IsSpace(s[k])
    ensures Strip(s) != []
  {
  }

  /** How an f-string renders an optional text column: `None` prints as "None". */
  function Format(v: Option<string>): (r: string)
    ensures v.Some? ==> r == v.value
    ensures v.None? ==> r == "None"
  {
    match v
    case None => "None"
    case Some(s) => s
  }

  /** Python truthiness of an optional text column: neither `None` nor empty. */
  predicate Truthy(v: Option<string>) {
    v.Some? && v.value != ""
  }
}

=== FILE: user_services.dfy ===
/**
 * The hand-written data-access layer over the user and user-profile tables.
 * The two tables are maps keyed by user id.  Register and Update return the
 * `(success, data)` pair the source returns, Login an optional signed-in
 * user, List and Detail summaries, and Delete whether a row was found or
 * the error the database raised; each mutating operation also yields the
 * tables as they are after its statements ran.  Database failures the model
 * does not derive from the tables (a too-long column value, a lost
 * connection) enter as explicit fault parameters.
 */
module UserServices {
  import opened Wrappers
  import opened Uuids
  import opened Models

  /** The user table and the user-profile table, the latter keyed by its user's id. */
  datatype Db = Db(users: map<Uuid, User>, profiles: map<Uuid, UserProfile>)

  predicate EmailTaken(users: map<Uuid, User>, email: string) {
    exists id :: id in users && users[id].email == email
  }

  /** The unique constraint on the email column. */
  predicate UniqueEmails(users: map<Uuid, User>) {
    forall a, b :: a in users && b in users && users[a].email == users[b].email ==> a == b
  }

  /** Some user other than `id` has the email. */
  predicate EmailTakenByOther(users: map<Uuid, User>, id: Uuid, email: string) {
    exists other :: other in users && other != id && users[other].email == email
  }

  predicate ProfileIdTaken(profiles: map<Uuid, UserProfile>, profileId: Uuid) {
    exists owner :: owner in profiles && profiles[owner].id == profileId
  }

  predicate UniqueProfileIds(profiles: map<Uuid, UserProfile>) {
    forall a, b :: a in profiles && b in profiles && profiles[a].id == profiles[b].id ==> a == b
  }

  /** What the schema guarantees of any state of the two tables. */
  predicate Consistent(db: Db) {
    && UniqueEmails(db.users)
    && db.profiles.Keys <= db.users.Keys
    && UniqueProfileIds(db.profiles)
  }

  // ----- results -----

  /** The two kinds of exception the services tell apart. */
  datatype DbError = IntegrityError | OtherError(message: string)

  /** The dictionaries the services return as their second component. */
  datatype Data =
    | NoData
    | NewId(id: string)
    | FieldErrors(field: string, messages: seq<string>)
    | ErrorMessage(error: string)

  datatype Reply = Reply(success: bool, data: Data)

  /** A service's reply and the tables after it. */
  datatype Change = Change(reply: Reply, db: Db)

  const EmailExistsMessage := "This email already exists."
  const RegisterIntegrityMessage := "An error occurred during registration."
  const UpdateIntegrityMessage := "An error occurred during user update."

  /** The reply of an `except` clause: a fixed text for integrity errors, the exception's text otherwise. */
  function Failure(e: DbError, integrityMessage: string): (r: Reply)
    ensures !r.success && r.data.ErrorMessage?
    ensures r.data.error == (if e.IntegrityError? then integrityMessage else e.message)
  {
    Reply(false, ErrorMessage(if e.IntegrityError? then integrityMessage else e.message))
  }

  // ----- password hashing -----

  /**
   * The password hasher, which lies outside this model: `make(password, salt)`
   * builds a stored hash (the salt is the hasher's randomness), `check`
   * verifies a password against one.
   */
  datatype Hasher = Hasher(make: (string, string) -> string, check: (string, string) -> bool)

  /** A hasher accepts every password against every hash made from it. */
  ghost predicate Sound(h: Hasher) {
    forall password, salt :: h.check(password, h.make(password, salt))
  }

  // ----- login -----

  /** The user object login rebuilds from the row, hashed password included. */
  datatype SignedIn = SignedIn(id: Uuid, user: User)

  /**
   * `get_raw_login_queries`: the row with the email, if its stored hash
   * checks against the password.  A failing query, an unknown email and a
   * wrong password all give `None`.
   */
  function Login(db: Db, h: Hasher, email: string, password: string, queryFails: bool): (r: Option<SignedIn>)
    requires UniqueEmails(db.users)
    ensures r.Some? ==> && !queryFails
                        && r.value.id in db.users && db.users[r.value.id] == r.value.user
                        && r.value.user.email == email
                        && h.check(password, r.value.user.password)
    ensures r.None? ==> || queryFails
                        || forall id :: id in db.users && db.users[id].email == email ==>
                                          !h.check(password, db.users[id].password)
  {
    if queryFails || !EmailTaken(db.users, email) then None
    else
      var id :| id in db.users && db.users[id].email == email;
      if h.check(password, db.users[id].password) then Some(SignedIn(id, db.users[id])) else None
  }

  /** The caller cannot tell an unknown email from a wrong password: both are `None`. */
  lemma LoginHidesCause(db: Db, h: Hasher, email: string, password: string)
    requires UniqueEmails(db.users)
    requires !EmailTaken(db.users, email)
             || exists id :: id in db.users && db.users[id].email == email && !h.check(password, db.users[id].password)
    ensures Login(db, h, email, password, false) == None
  {
  }

  /** Login does not look at `is_active`: a deactivated user with the right password signs in. */
  lemma LoginIgnoresIsActive(db: Db, h: Hasher, id: Uuid, password: string)
    requires UniqueEmails(db.users)
    requires id in db.users && !db.users[id].isActive && h.check(password, db.users[id].password)
    ensures Login(db, h, db.users[id].email, password, false) == Some(SignedIn(id, db.users[id]))
  {
  }

  // ----- register -----

  datatype Registration = Registration(
    firstName: string,
    lastName: string,
    email: string,
    password: string,
    phone: string,
    dob: Date,
    gender: Gender,
    address: string,
    role: Role)

  /** Exceptions raised by the email lookup, the user insert and the profile insert. */
  datatype Faults = Faults(lookup: Option<DbError>, userInsert: Option<DbError>, profileInsert: Option<DbError>)

  const NoFaults := Faults(None, None, None)

  /** The user row register inserts: not staff, active, not superuser. */
  function NewUser(form: Registration, hash: string): (u: User)
    ensures u.email == form.email && u.password == hash && u.role == form.role
    ensures !u.isStaff && u.isActive && !u.isSuperuser
  {
    User(form.email, hash, form.role, false, true, false)
  }

  /** The profile row register inserts: the form's personal fields, every one present. */
  function NewProfile(form: Registration, profileId: Uuid): (p: UserProfile)
    ensures p.id == profileId && p.gender == form.gender && p.dateOfBirth == Some(form.dob)
    ensures p.firstName == Some(form.firstName) && p.lastName == Some(form.lastName)
    ensures p.phone == Some(form.phone) && p.address == Some(form.address)
  {
    UserProfile(profileId, Some(form.firstName), Some(form.lastName), Some(form.phone),
                Some(form.dob), form.gender, Some(form.address))
  }

  /**
   * `get_raw_register_queries`: refuses a taken email, then inserts the user
   * row and the profile row as two separate statements.  `userId` and
   * `profileId` are the two `uuid4()` values and `salt` the hasher's
   * randomness.  A key collision fails as the database would, with an
   * integrity error.  The inserts are not atomic: a failing profile insert
   * leaves the new user row behind.
   */
  function Register(db: Db, h: Hasher, form: Registration, userId: Uuid, profileId: Uuid,
                    salt: string, faults: Faults): (r: Change)
    ensures faults.lookup.Some? ==> r == Change(Failure(faults.lookup.value, RegisterIntegrityMessage), db)
    ensures faults.lookup.None? && EmailTaken(db.users, form.email) ==>
              r == Change(Reply(false, FieldErrors("email", [EmailExistsMessage])), db)
    ensures faults.lookup.None? && !EmailTaken(db.users, form.email) && faults.userInsert.Some? ==>
              r == Change(Failure(faults.userInsert.value, RegisterIntegrityMessage), db)
    ensures faults.lookup.None? && !EmailTaken(db.users, form.email) && faults.userInsert.None? && userId in db.users ==>
              r == Change(Failure(IntegrityError, RegisterIntegrityMessage), db)
    ensures !r.reply.success && userId in r.db.users && userId !in db.users ==>
              && faults.lookup.None? && faults.userInsert.None? && !EmailTaken(db.users, form.email)
              && r.reply == Failure(if faults.profileInsert.Some? then faults.profileInsert.value else IntegrityError,
                                    RegisterIntegrityMessage)
              && r.db.users[userId] == NewUser(form, h.make(form.password, salt))
    ensures r.reply.success <==>
              && faults == NoFaults && !EmailTaken(db.users, form.email)
              && userId !in db.users && userId !in db.profiles && !ProfileIdTaken(db.profiles, profileId)
    ensures r.reply.success ==>
              && r.reply.data == NewId(ToString(userId))
              && r.db.users.Keys == db.users.Keys + {userId}
              && r.db.profiles.Keys == db.profiles.Keys + {userId}
              && r.db.users[userId] == NewUser(form, h.make(form.password, salt))
              && r.db.profiles[userId] == NewProfile(form, profileId)
    ensures !r.reply.success ==> r.db.profiles == db.profiles && r.db.users.Keys <= db.users.Keys + {userId}
    ensures (faults.lookup.None? && faults.userInsert.None? && !EmailTaken(db.users, form.email)
             && userId !in db.users) ==> userId in r.db.users
    ensures forall id :: id in db.users ==> id in r.db.users && r.db.users[id] == db.users[id]
    ensures forall id :: id in db.profiles ==> id in r.db.profiles && r.db.profiles[id] == db.profiles[id]
    ensures UniqueEmails(db.users) ==> UniqueEmails(r.db.users)
  {
    if faults.lookup.Some? then Change(Failure(faults.lookup.value, RegisterIntegrityMessage), db)
    else if EmailTaken(db.users, form.email) then
      Change(Reply(false, FieldErrors("email", [EmailExistsMessage])), db)
    else if faults.userInsert.Some? then Change(Failure(faults.userInsert.value, RegisterIntegrityMessage), db)
    else if userId in db.users then Change(Failure(IntegrityError, RegisterIntegrityMessage), db)
    else
      var withUser := db.(users := db.users[userId := NewUser(form, h.make(form.password, salt))]);
      if faults.profileInsert.Some? then
        Change(Failure(faults.profileInsert.value, RegisterIntegrityMessage), withUser)
      else if userId in db.profiles || ProfileIdTaken(db.profiles, profileId) then
        Change(Failure(IntegrityError, RegisterIntegrityMessage), withUser)
      else
        Change(Reply(true, NewId(ToString(userId))),
               withUser.(profiles := db.profiles[userId := NewProfile(form, profileId)]))
  }

  /** Register keeps every guarantee of the schema. */
  lemma RegisterConsistent(db: Db, h: Hasher, form: Registration, userId: Uuid, profileId: Uuid,
                           salt: string, faults: Faults)
    requires Consistent(db)
    ensures Consistent(Register(db, h, form, userId, profileId, salt, faults).db)
  {
  }

  /** After a successful register, the same email and password sign in as the stored row. */
  lemma RegisterThenLogin(db: Db, h: Hasher, form: Registration, userId: Uuid, profileId: Uuid, salt: string)
    requires Sound(h) && UniqueEmails(db.users)
    requires Register(db, h, form, userId, profileId, salt, NoFaults).reply.success
    ensures var after := Register(db, h, form, userId, profileId, salt, NoFaults).db;
            UniqueEmails(after.users)
            && Login(after, h, form.email, form.password, false)
               == Some(SignedIn(userId, NewUser(form, h.make(form.password, salt))))
  {
  }

  /**
   * A failing profile insert leaves a user without a profile, and the email
   * is then taken: registering again is refused.
   */
  lemma RegisterPartialFailure(db: Db, h: Hasher, form: Registration, userId: Uuid, profileId: Uuid,
                               salt: string, e: DbError)
    requires Consistent(db)
    requires !EmailTaken(db.users, form.email) && userId !in db.users
    ensures var r := Register(db, h, form, userId, profileId, salt, Faults(None, None, Some(e)));
            && !r.reply.success
            && userId in r.db.users && userId !in r.db.profiles
            && Register(r.db, h, form, userId, profileId, salt, NoFaults).reply
               == Reply(false, FieldErrors("email", [EmailExistsMessage]))
  {
    var r := Register(db, h, form, userId, profileId, salt, Faults(None, None, Some(e)));
    assert r.db.users[userId].email == form.email;
  }

  /**
   * Register runs no field validator: with the same database faults, the
   * phone number and the date of birth do not change the reply, so neither
   * the phone pattern nor the future-date rule is applied.
   */
  lemma RegisterIgnoresPhoneAndDob(db: Db, h: Hasher, form: Registration, phone: string, dob: Date,
                                   userId: Uuid, profileId: Uuid, salt: string, faults: Faults)
    ensures Register(db, h, form, userId, profileId, salt, faults).reply
            == Register(db, h, form.(phone := phone, dob := dob), userId, profileId, salt, faults).reply
  {
  }

  // ----- list and detail -----

  /** The columns list and detail select. */
  datatype UserSummary = UserSummary(id: Uuid, email: string, isStaff: bool, isActive: bool, role: Role)

  function Summary(id: Uuid, u: User): UserSummary {
    UserSummary(id, u.email, u.isStaff, u.isActive, u.role)
  }

  /** `get_raw_user_list_queries`: every user but the super admins, projected. */
  function List(db: Db): (r: set<UserSummary>)
    ensures forall s :: s in r ==> s.role != SuperAdmin && s.id in db.users && Summary(s.id, db.users[s.id]) == s
    ensures forall id :: id in db.users && db.users[id].role != SuperAdmin ==> Summary(id, db.users[id]) in r
  {
    set id | id in db.users && db.users[id].role != SuperAdmin :: Summary(id, db.users[id])
  }

  /** `get_raw_user_detail_queries`: the projection of the row with the id, if any. */
  function Detail(db: Db, id: Uuid): (r: Option<UserSummary>)
    ensures r.Some? <==> id in db.users
    ensures r.Some? ==> r.value.id == id && Summary(id, db.users[id]) == r.value
  {
    if id in db.users then Some(Summary(id, db.users[id])) else None
  }

  /** The list is exactly the details of the users that are not super admins. */
  lemma ListIsDetailOfNonAdmins(db: Db, s: UserSummary)
    ensures s in List(db) <==> Detail(db, s.id) == Some(s) && s.role != SuperAdmin
  {
  }

  // ----- update -----

  /** The four values update reads with `data.get`; a missing key is `None`, written as NULL. */
  datatype UserChanges = UserChanges(email: Option<string>, isStaff: Option<bool>, isActive: Option<bool>, role: Option<Role>)

  predicate Complete(c: UserChanges) {
    c.email.Some? && c.isStaff.Some? && c.isActive.Some? && c.role.Some?
  }

  /** The row with the four columns overwritten. */
  function Apply(u: User, c: UserChanges): User
    requires Complete(c)
  {
    u.(email := c.email.value, isStaff := c.isStaff.value, isActive := c.isActive.value, role := c.role.value)
  }

  /**
   * `update_raw_user_queries`: overwrites email, staff flag, active flag and
   * role of the row with the id.  No row with the id is still a success.  A
   * NULL for a NOT NULL column, or an email another user has, violates a
   * constraint and is reported as an integrity error.
   */
  function Update(db: Db, id: Uuid, changes: UserChanges, fault: Option<DbError>): (r: Change)
    ensures fault.Some? ==> r == Change(Failure(fault.value, UpdateIntegrityMessage), db)
    ensures r.reply.success ==> r.reply.data == NoData
    ensures !r.reply.success ==> r.db == db && r.reply.data.ErrorMessage?
    ensures fault.None? && !r.reply.success ==> r.reply == Failure(IntegrityError, UpdateIntegrityMessage)
    ensures r.db.profiles == db.profiles && r.db.users.Keys == db.users.Keys
    ensures forall other :: other in db.users && other != id ==> r.db.users[other] == db.users[other]
    ensures fault.None? && id !in db.users ==> r == Change(Reply(true, NoData), db)
    ensures fault.None? && id in db.users ==>
              (r.reply.success <==> Complete(changes) && forall other :: other in db.users && other != id
                                                           ==> db.users[other].email != changes.email.value)
    ensures r.reply.success && id in db.users ==>
              && Complete(changes)
              && r.db.users[id].email == changes.email.value && r.db.users[id].isStaff == changes.isStaff.value
              && r.db.users[id].isActive == changes.isActive.value && r.db.users[id].role == changes.role.value
              && r.db.users[id].password == db.users[id].password
              && r.db.users[id].isSuperuser == db.users[id].isSuperuser
    ensures UniqueEmails(db.users) ==> UniqueEmails(r.db.users)
  {
    if fault.Some? then Change(Failure(fault.value, UpdateIntegrityMessage), db)
    else if id !in db.users then Change(Reply(true, NoData), db)
    else if !Complete(changes) || EmailTakenByOther(db.users, id, changes.email.value) then
      Change(Failure(IntegrityError, UpdateIntegrityMessage), db)
    else Change(Reply(true, NoData), db.(users := db.users[id := Apply(db.users[id], changes)]))
  }

  /** Taking another user's email is an integrity error that changes nothing. */
  lemma UpdateEmailConflict(db: Db, id: Uuid, other: Uuid, changes: UserChanges)
    requires id in db.users && other in db.users && other != id
    requires Complete(changes) && changes.email.value == db.users[other].email
    ensures Update(db, id, changes, None) == Change(Reply(false, ErrorMessage(UpdateIntegrityMessage)), db)
  {
  }

  // ----- delete -----

  /** The outcome of the delete statement: its row count and the tables, or an exception that escapes. */
  datatype Deletion = Deleted(found: bool, db: Db) | Raised(error: DbError)

  /**
   * `delete_raw_user_queries` as written: a bare DELETE on the user table.
   * The cascade to the profile is declared on the model, but Django carries
   * it out in its ORM, not in the database, so the database's foreign key
   * refuses to delete a user that still has a profile, and the integrity
   * error is not caught.
   */
  function DeleteAsWritten(db: Db, id: Uuid): (r: Deletion)
    ensures id in db.profiles <==> r.Raised?
    ensures r.Deleted? ==> (r.found <==> id in db.users) && id !in r.db.users && r.db.profiles == db.profiles
    ensures r.Raised? ==> r.error == IntegrityError
    ensures r.Deleted? ==> r.db.users == db.users - {id}
  {
    if id in db.profiles then Raised(IntegrityError)
    else Deleted(id in db.users, db.(users := db.users - {id}))
  }

  /** Every registered user has a profile, so deleting a freshly registered user raises. */
  lemma DeleteRegisteredUserRaises(db: Db, h: Hasher, form: Registration, userId: Uuid, profileId: Uuid, salt: string)
    requires Register(db, h, form, userId, profileId, salt, NoFaults).reply.success
    ensures DeleteAsWritten(Register(db, h, form, userId, profileId, salt, NoFaults).db, userId) == Raised(IntegrityError)
  {
  }

  /**
   * Deleting a user as intended: the user row and, by the declared cascade,
   * its profile.  Reports whether a row existed.
   */
  function Delete(db: Db, id: Uuid): (r: Deletion)
    ensures r.Deleted? && (r.found <==> id in db.users)
    ensures id !in r.db.users && id !in r.db.profiles
    ensures forall other :: other != id ==>
              && (other in r.db.users <==> other in db.users)
              && (other in r.db.profiles <==> other in db.profiles)
    ensures forall other :: other in r.db.users ==> r.db.users[other] == db.users[other]
    ensures forall other :: other in r.db.profiles ==> r.db.profiles[other] == db.profiles[other]
  {
    Deleted(id in db.users, Db(db.users - {id}, db.profiles - {id}))
  }

  /** Deleting keeps every guarantee of the schema, and agrees with the statement as written on users without a profile. */
  lemma DeleteConsistent(db: Db, id: Uuid)
    requires Consistent(db)
    ensures Consistent(Delete(db, id).db)
    ensures id !in db.profiles ==> DeleteAsWritten(db, id) == Delete(db, id)
  {
    if id !in db.profiles {
      assert db.profiles - {id} == db.profiles;
    }
  }
}

=== FILE: uuids.dfy ===
/**
 * Identifiers of users, profiles and artist records are UUIDs.  The model
 * keeps a UUID as its 32 hexadecimal digits and gives `str(uuid)`, the
 * canonical lower-case 8-4-4-4-12 form, so that the views' comparisons of
 * `str(...)` values can be related to identity of the ids themselves.
 */
module Uuids {

  type Nibble = n: int | 0 <= n < 16

  /** A UUID as its 128 bits, most significant nibble first. */
  type Uuid = s: seq<Nibble> | |s| == 32 witness seq(32, _ => 0)

  function HexChar(n: Nibble): (c: char)
    ensures '0' <= c <= '9' || 'a' <= c <= 'f'
  {
    if n < 10 then ('0' as int + n) as char else ('a' as int + n - 10) as char
  }

  /** Reads back a lower-case hexadecimal digit. */
  function HexValue(c: char): (n: Nibble)
    requires '0' <= c <= '9' || 'a' <= c <= 'f'
  {
    if c <= '9' then c as int - '0' as int else c as int - 'a' as int + 10
  }

  lemma HexCharInverse(n: Nibble)
    ensures HexValue(HexChar(n)) == n
  {
  }

  /** The hexadecimal spelling of a run of nibbles, one character each. */
  function Hex(ns: seq<Nibble>): (r: string)
    ensures |r| == |ns|
    ensures forall i :: 0 <= i < |ns| ==> r[i] == HexChar(ns[i])
  {
    if ns == [] then "" else [HexChar(ns[0])] + Hex(ns[1..])
  }

  /** Python's `str(uuid)`: groups of 8, 4, 4, 4 and 12 digits joined by dashes. */
  function ToString(u: Uuid): (r: string)
    ensures |r| == 36
    ensures r[8] == '-' && r[13] == '-' && r[18] == '-' && r[23] == '-'
  {
    Hex(u[0..8]) + "-" + Hex(u[8..12]) + "-" + Hex(u[12..16]) + "-" + Hex(u[16..20]) + "-" + Hex(u[20..32])
  }

  /** Where the i-th digit of a UUID lands in its string form. */
  function DigitPosition(i: nat): nat
    requires i < 32
  {
    if i < 8 then i
    else if i < 12 then i + 1
    else if i < 16 then i + 2
    else if i < 20 then i + 3
    else i + 4
  }

  lemma ToStringDigit(u: Uuid, i: nat)
    requires i < 32
    ensures DigitPosition(i) < 36 && ToString(u)[DigitPosition(i)] == HexChar(u[i])
  {
    var s := ToString(u);
    if i < 8 {
      assert s[i] == Hex(u[0..8])[i];
    } else if i < 12 {
      assert s[i + 1] == Hex(u[8..12])[i - 8];
    } else if i < 16 {
      assert s[i + 2] == Hex(u[12..16])[i - 12];
    } else if i < 20 {
      assert s[i + 3] == Hex(u[16..20])[i - 16];
    } else {
      assert s[i + 4] == Hex(u[20..32])[i - 20];
    }
  }

  /** Comparing `str(a)` with `str(b)` is the same as comparing the ids. */
  lemma ToStringInjective(a: Uuid, b: Uuid)
    ensures ToString(a) == ToString(b) <==> a == b
  {
    if ToString(a) == ToString(b) {
      forall i | 0 <= i < 32
        ensures a[i] == b[i]
      {
        ToStringDigit(a, i);
        ToStringDigit(b, i);
        HexCharInverse(a[i]);
        HexCharInverse(b[i]);
      }
    }
  }
}

=== FILE: wrappers.dfy ===
/** Optional values: Python's `None` versus a present value. */
module Wrappers {

  datatype Option<+T> = None | Some(value: T)
}
